=== FILE: README.md ===
# Portfolio chat endpoint — a Dafny model

This project models the two pieces of logic in the portfolio assistant's chat view
(`chat/views.py`):

* **The profile digest** (`_compact_about`). It turns the portfolio profile, a decoded
  JSON document, into a short text for the system prompt. It emits up to seven sections
  in a fixed order, newline-joined: Name, Summary, Education, Internship, Projects,
  Skills, Focus. It looks at no more than 6 projects and cuts each overview to 120
  characters. It takes at most 8 skills per category and 20 in all. A falsy or non-dict
  profile is rendered with `str()` instead.
* **The request outcome** (`chat_api`), as a pure function. Its inputs are the HTTP
  method, the decoded request body, whether the API key is set, the loaded profile, the
  persona template and what the completion service did. Its result is the HTTP status,
  the `{"reply": …}` or `{"error": …}` payload, and the conversation sent upstream, if
  any.

The Python semantics the view depends on are modelled explicitly:

* truthiness;
* `dict.get`, `in`, subscripting and slicing;
* `str.join`, `str.strip` and `str()`;
* the exceptions these raise on values of the wrong shape.

Such exceptions are not ruled out by preconditions. They propagate as a `Result`, and
the endpoint's catch-all turns them into a 500 answer whose text is `str(e)`. This covers
the digest too. A truthy int, bool or dict overview of a project with a truthy name
among the first six cannot be sliced; a falsy overview is never sliced, and projects
without a truthy name or after the sixth are not looked at. A skills list whose first
twenty entries hold a non-string cannot be joined. In both cases `_compact_about` raises
and the endpoint answers 500 before any upstream call.

Files:

* `wrappers.dfy`: `Option`.
* `text.dfy`: joining and splitting, strip, slicing, decimal rendering of integers.
* `json.dfy`: the JSON value type, truthiness and `str`/`repr`.
* `python.dfy`: the Python operations and their exceptions.
* `compact.dfy`: the digest.
* `chat.dfy`: the endpoint.

## Behaviours of the code worth noting

`chat/views.py` does the following, and the model does the same:

* A request body that is valid JSON but not a dict (a list, a string, a number) gives
  500, because `body.get` raises `AttributeError`.
* A `message` that is truthy but not a string (a number, a list) passes validation. It is
  forwarded upstream as given.
* A failed upstream call whose `error` field is a string or `null` gives 500, because
  `.get` is applied to it. The same applies to any upstream body that is valid
  JSON but not a dict.
* The "no choices" path reports `error.message` or "API Error", with status 500.
* A profile file that exists but cannot be opened or decoded for a reason other than
  invalid JSON (a directory, bytes that are not UTF-8, no permission) is not turned into
  `None` by the loader. The exception reaches the catch-all, and the answer is 500 with
  its text.

## Model

| member | source | states |
|---|---|---|
| Json.Lookup | chat/views.py:35-38 | `d.get(key)` finds a value exactly when some member has that key, and the value found belongs to such a member |
| Json.FalsyValues | chat/views.py:32 | exactly six values are falsy: None, False, 0, "", [] and {} |
| Json.StrEmpty | chat/views.py:33 | `str(data)` is empty only when data is the empty string |
| Json.Field | chat/views.py:35 | `d.get(key)` is the stored value when the key is present and `None` when it is absent |
| Json.Str | chat/views.py:36 | `str()` of a string is the string itself, of anything else its `repr`; the result is empty exactly for the empty string |
| Json.Repr | chat/views.py:33 | `repr` is never empty; it starts with `[` exactly for lists, `{` exactly for dicts and a quote exactly for strings, and lists and dicts end with `]` and `}` |
| Text.Strip | chat/views.py:42-47 | `strip()` never lengthens; its result has no whitespace at either end; a string with none at its ends is unchanged; one starting with a non-space only loses trailing whitespace |
| Text.StripIsTrimmedInfix | chat/views.py:42-47 | `strip()` returns the part between leading and trailing whitespace, and has no whitespace at either end |
| Text.StripIdempotent | chat/views.py:42-47 | stripping an already stripped line changes nothing |
| Text.StripKeepsPrefix | chat/views.py:47 | for a string that starts with a non-space character, strip never cuts into a prefix that ends in a non-space character |
| Text.SplitJoin | chat/views.py:71 | for one or more parts, none holding a newline, splitting the `"\n".join` at newlines gives back exactly the parts |
| Text.ParseNatToString | chat/views.py:33 | the decimal rendering `str(n)` of a natural number reads back as `n` |
| Py.Get | chat/views.py:35-45 | `.get` succeeds exactly on dicts; it yields the stored value when the key is present and the default otherwise; on anything else it raises `AttributeError` |
| Py.Contains | chat/views.py:216 | `"choices" in result` tests dict keys, list items, or substrings of a string; other values raise |
| Py.Subscript | chat/views.py:216 | `result["choices"]` yields the stored value of a dict that holds the key; any non-dict raises |
| Py.First | chat/views.py:220 | `choices[0]` succeeds exactly on non-empty lists and strings and gives the first item |
| Py.SliceTo | chat/views.py:56 | `overview[:120]` succeeds exactly on strings and lists and keeps their first 120 items |
| Py.JoinStrings | chat/views.py:68 | `", ".join` succeeds exactly when every item is a string; otherwise it raises `TypeError` naming the first non-string |
| Compact.ProjectLine | chat/views.py:53-56 | a project yields a line exactly when its name is truthy; with a string overview the line is `- name: overview[:120]`, whose fragment is a prefix of the overview of at most 120 characters, or `- name` when the overview is falsy, whatever its type; slicing a truthy non-string, non-list overview raises |
| Compact.ProjectLines | chat/views.py:51-57 | the projects loop yields one line per named project, and succeeds exactly when no project's line raises |
| Compact.NamedCountIsPositions | chat/views.py:51-57 | the number of lines the projects loop yields (`NamedCount`) is the number of positions of named projects that the bullets are indexed by |
| Compact.ProjectLinesBullets | chat/views.py:51-57 | the lines of the projects loop are, in order and one each, the bullets of the projects with a truthy name: the j-th line is the bullet of the j-th named project, and every named project is counted |
| Compact.ProjectsText | chat/views.py:49-58 | a projects value that is not a list gives no section; the section raises exactly when the loop over the first six projects raises; a Projects section is "Projects: " followed by the space-joined, non-empty lines of the first six projects |
| Compact.ProjectsAfterSixthIgnored | chat/views.py:52 | projects after the sixth never change the Projects section |
| Compact.ProjectsPresent | chat/views.py:49-58 | the Projects section appears exactly when one of the first six projects has a truthy name |
| Compact.Contribution | chat/views.py:62-66 | a list category contributes a prefix of at most 8 entries; a truthy non-list value contributes exactly its `str`; a falsy one contributes nothing |
| Compact.SkillEntriesBound | chat/views.py:61-66 | the flattened skills list has at most 8 entries per category |
| Compact.SkillEntriesEmpty | chat/views.py:61-67 | the flattened list is empty exactly when no category contributes |
| Compact.SkillsPresent | chat/views.py:59-67 | the flattened list is non-empty exactly when some category value is truthy |
| Compact.CollectSkills | chat/views.py:61-66 | the per-category loop with `extend`/`append` builds the flattened list |
| Compact.SkillsText | chat/views.py:59-68 | a skills dict gives a section starting with "Skills: " exactly when its list is non-empty and its first twenty entries are strings; it raises exactly when one of those is not a string; a non-dict gives no section |
| Compact.SkillsShown | chat/views.py:67-68 | the Skills section lists between 1 and 20 entries: the first twenty of the list, in order |
| Compact.FieldText | chat/views.py:42 | a missing subfield renders as the empty string, a present one as its `str` |
| Compact.EducationLine | chat/views.py:39-43 | the education line is `Education: degree from institution (year)`, exactly as formatted: strip removes nothing, since it starts with "E" and ends with ")" |
| Compact.InternshipLine | chat/views.py:44-48 | the internship line is `Internship: role at company, duration` with only trailing whitespace removed; everything up to the comma is kept |
| Compact.SectionText | chat/views.py:35-70 | Name, Summary, Education, Internship and Focus lines appear exactly when their guards hold, as `Name: ` + `str(name)`, `Summary: ` + `str(summary)`, the education line, the internship line and `Focus: ` + `str(focus)`; Projects and Skills come from their loops |
| Compact.Parts | chat/views.py:34-70 | a digest has at most seven parts |
| Compact.PartsTexts | chat/views.py:35-70 | each part of a profile dict is its section's line, as `SectionText` gives it for the outcome of the two loops |
| Compact.Compact | chat/views.py:30-33 | a falsy or non-dict profile yields exactly `str(profile)`; for a truthy dict the digest fails exactly when building its parts raises |
| Compact.DigestSections | chat/views.py:34-71 | the digest of a dict is the newline-join of at most seven parts; they come in the order Name, Summary, Education, Internship, Projects, Skills, Focus; each starts with its label and is its section's line (`Name: ` + `str(name)`, the education line, and so on); a section appears exactly when its guard holds |
| Compact.EmptyDigest | chat/views.py:34-71 | a profile dict in which no section's guard holds has the empty digest |
| Compact.DigestLines | chat/views.py:71 | for a non-empty digest whose parts hold no newline, splitting the digest at newlines gives back its parts, at most seven lines |
| ChatApi.Conversation | chat/views.py:180-183 | the conversation is exactly two messages: a system message whose content is the template's head, then the digest, then the template's tail; then the user's input unchanged |
| ChatApi.UpstreamErrorText | chat/views.py:211-213 | for any dict body: no `error` gives "API Error"; an `error` dict without `message` gives "API Error"; a non-dict `message` gives its `str`; a dict `message` gives `str` of its own `message`, or "API Error"; a non-dict `error` or body raises |
| ChatApi.MissingChoices | chat/views.py:216-218 | with no usable choices the answer is 500 with `str(error.message)`, or "API Error"; it raises when the body or its `error` is not a dict |
| ChatApi.FirstChoice | chat/views.py:220-224 | the first choice's `message.content` is the reply with 200 when truthy, else 500 "AI returned an empty reply." |
| ChatApi.ReadBody | chat/views.py:210-224 | an error status gives 502 with the upstream message; missing or empty choices give 500 with `error.message` or "API Error"; empty content gives 500 "AI returned an empty reply."; content at `choices[0].message.content` gives 200 with that content; 200 happens only in that last case |
| ChatApi.Normalize | chat/views.py:201-235 | a timeout gives 504 and nothing else does; other transport failures give 502; a non-JSON body gives 502 whatever the status; a JSON body read without an exception gives exactly the `ReadBody` answer (502 with the upstream message, 500 for missing choices or empty content, 200 with the content); exceptions while reading the body give 500 with `str(e)`; 200 means a reply holding the first choice's non-empty content |
| ChatApi.Handle | chat/views.py:79-235 | the checks run in order, each answering before any upstream call: non-POST 400, malformed JSON 400, non-dict body 500, falsy message 400, no API key 503, an unreadable profile file 500 with the exception's text, no profile 503 (absent, invalid JSON, or JSON `null`), a digest that raises 500 with `str(e)`; the call is made exactly when all checks pass and the digest builds; it sends the two-message conversation and the answer is the normalized upstream outcome; the status is one of 200/400/500/502/503/504; it is 200 exactly for a reply |
| ChatApi.NoCallIgnoresUpstream | chat/views.py:80-101 | when the call is not made, the answer does not depend on the upstream outcome |
| ChatApi.ConversationFixedBeforeCall | chat/views.py:104-183 | the conversation sent does not depend on the upstream outcome |
| ChatApi.SuccessIsFirstChoice | chat/views.py:216-224 | a 200 answer comes from an ok, JSON upstream reply, and carries the content of its first choice |
| ChatApi.HelloExample | chat/views.py:220-224 | one choice with content "Hello" gives 200 with reply "Hello" |
| ChatApi.EmptyChoicesExample | chat/views.py:216-218 | an empty choices list with no upstream error gives 500 "API Error" |
| ChatApi.ErrorMessageUnwrapped | chat/views.py:211-213 | a failed call reports `error.message`, or the nested `message` when that is a dict, or "API Error" when there is no `error` |
| ChatApi.StringErrorRaises | chat/views.py:210-235 | a string-valued `error` on a failed call raises `AttributeError`; the answer is 500 with its text |
| ChatApi.TruthyMessageForwarded | chat/views.py:85-88 | any truthy `message` is forwarded as the user turn, whatever its type |

## Left out

- Django plumbing is left out: the `home` view, template rendering, `JsonResponse` serialization, `csrf_exempt`, `build_absolute_uri` and logging. None of it has logic of its own.
- `_load_about_data` is not modelled. Reading and decoding `data.json` is I/O. The endpoint takes its outcome as a `Profile` input. `Absent` means the loader returned `None`: the file is missing or is not valid JSON. `Unreadable(reason)` means opening or decoding raised any other exception, such as a directory, bytes that are not UTF-8 or no permission. `reason` is that exception's text, which depends on the operating system and the path. `Loaded(data)` holds the decoded value. `Loaded(Null)`, a file holding JSON `null`, is treated like `Absent`, as the source does when the loader returns `None`.
- The `requests.post` call is not modelled: headers, the model name, `max_tokens` and the 45-second timeout. It is a network client. Its outcome is an input: timeout, other transport failure, or a reply with an ok flag and a body that did or did not parse.
- Reading `API_KEY` from the environment is not modelled. It is a boolean input: set and non-empty.
- The wording of the persona prompt is not modelled. It is instructions to the language model, which the code does not enforce. It appears as the `Template` head and tail around the digest.
- The model has no floats. JSON numbers with a fraction or exponent decode to Python floats, and their `str` has rules of its own.
- Json.Repr: strings are always shown in single quotes, without Python's choice of quote character or its escaping. So `str()` of a list or dict holding strings with quotes, backslashes or control characters differs from Python.
- Json.Lookup: a dict is assumed to have distinct keys, as a Python dict always does. On a member list with a repeated key, the model takes the first value, where Python's JSON decoder keeps the last.
- A request body whose decoding raises anything other than `JSONDecodeError` gets 500 from the catch-all in the source; the model has no such input, since `Request.body` is either a decoded value or `None` (answered 400). The cases are: bytes that are not valid UTF-8 (`UnicodeDecodeError`); an integer literal longer than Python's digit limit for string conversion, 4300 digits by default (`ValueError`), although the model's `Int` holds any integer; nesting deeper than the recursion limit (`RecursionError`); and `\ud800`-style escapes, which decode to lone surrogates that the model's `char` cannot hold.
- Exception texts follow CPython 3.12 wording. Slicing a dict gives `KeyError` with text `slice(None, 120, None)`. Older versions raise `TypeError` with different words. The status is 500 in every version.
- The language model's behaviour is left out. So is concurrency: each request is independent and shares no state.

=== FILE: chat.dfy ===
/** The chat endpoint (`chat_api`) as a pure function of its inputs: the HTTP
    method and decoded body, whether the API key is configured, the loaded
    profile, the persona template and what the completion service did. The
    result is the HTTP status, the JSON payload, and the conversation sent
    upstream when the call is made. */
module ChatApi {
  import opened Wrappers
  import opened Json
  import opened Py
  import Compact

  datatype Role = System | User

  datatype ChatMessage = ChatMessage(role: Role, content: Json)

  /** The incoming request; `body` is `None` when it is not valid JSON. */
  datatype Request = Request(httpMethod: string, body: Option<Json>)

  /** The outcome of the single upstream POST: it timed out, failed in transport,
      or answered with an ok/error status and a body that did or did not parse as JSON. */
  datatype Upstream = Timeout | ConnError | Replied(ok: bool, body: Option<Json>)

  /** What `_load_about_data` produced: `Absent` when the file is missing or is not valid
      JSON (the loader returns `None`), `Unreadable(reason)` when opening or decoding it
      raised any other exception, whose text is `reason`, and `Loaded(data)` otherwise. */
  datatype Profile = Absent | Unreadable(reason: string) | Loaded(data: Json)

  /** The persona prompt; the digest is placed between `head` and `tail`. */
  datatype Template = Template(head: string, tail: string)

  /** `{"reply": ...}` or `{"error": "..."}`. */
  datatype Payload = Reply(reply: Json) | Error(error: string)

  datatype Outcome = Outcome(status: int, payload: Payload, sent: Option<seq<ChatMessage>>)

  const InvalidRequest := "Invalid request"
  const MessageRequired := "Message required"
  const NotConfigured := "Chat is not configured. Set HUDDY_OPENROUTER_API_KEY_1 in .env."
  const ProfileMissing := "Portfolio data (data.json) is missing or invalid."
  const InvalidResponse := "AI service returned an invalid response. Try again later."
  const EmptyReply := "AI returned an empty reply."
  const InvalidJson := "Invalid JSON in request body."
  const TimedOut := "AI service timed out. Try again."
  const Unreachable := "Unable to reach AI service. Try again later."
  const ApiError := "API Error"

  /** The statuses the endpoint can answer with. */
  predicate KnownStatus(status: int) {
    status in {200, 400, 500, 502, 503, 504}
  }

  /** The two messages sent upstream: the persona prompt holding the digest, then the user's input as given. */
  function Conversation(t: Template, digest: string, input: Json): (r: seq<ChatMessage>)
    ensures |r| == 2
    ensures r[0].role == System && r[0].content.String?
    ensures |r[0].content.s| == |t.head| + |digest| + |t.tail|
    ensures r[0].content.s[..|t.head|] == t.head
    ensures r[0].content.s[|t.head|..|t.head| + |digest|] == digest
    ensures r[0].content.s[|t.head| + |digest|..] == t.tail
    ensures r[1] == ChatMessage(User, input)
  {
    [ChatMessage(System, String(t.head + digest + t.tail)), ChatMessage(User, input)]
  }

  /** The message of a failed upstream call: `error.message`, unwrapped once more
      when it is itself a dict, else `"API Error"`; a non-dict `error` raises. */
  function UpstreamErrorText(result: Json): (r: Result<string>)
    ensures r.Ok? <==> result.Object? && Lookup(result.members, "error").GetOr(Object([])).Object?
    ensures result.Object? && Lookup(result.members, "error").None? ==> r == Ok(ApiError)
    ensures result.Object? && Lookup(result.members, "error").Some? ==>
      var outer := Lookup(result.members, "error").value;
      && (outer.Object? && Lookup(outer.members, "message").None? ==> r == Ok(ApiError))
      && (outer.Object? && Lookup(outer.members, "message").Some? && !Lookup(outer.members, "message").value.Object? ==>
            r == Ok(Str(Lookup(outer.members, "message").value)))
      && (outer.Object? && Lookup(outer.members, "message").Some? && Lookup(outer.members, "message").value.Object? ==>
            var inner := Lookup(outer.members, "message").value;
            r == Ok(Str(Lookup(inner.members, "message").GetOr(String(ApiError)))))
  {
    var outer :- Get(result, "error", Object([]));
    // The default, `result.get("error", "API Error")`, cannot raise: `result` is a dict here.
    var message :- Get(outer, "message", Lookup(result.members, "error").GetOr(String(ApiError)));
    var unwrapped := if message.Object? then Lookup(message.members, "message").GetOr(String(ApiError)) else message;
    Ok(Str(unwrapped))
  }

  /** `choices[0].get("message", {}).get("content", "")` is `c`, with `choices` a
      non-empty list whose first entry is a dict. */
  predicate ChoiceContent(choices: Json, c: Json) {
    && choices.Array? && |choices.items| > 0
    && choices.items[0].Object?
    && var message := Lookup(choices.items[0].members, "message").GetOr(Object([]));
    && message.Object?
    && Lookup(message.members, "content").GetOr(String("")) == c
  }

  /** `result["choices"][0].get("message", {}).get("content", "")` is `c`. */
  predicate CompletionContent(result: Json, c: Json) {
    && result.Object?
    && Lookup(result.members, "choices").Some?
    && ChoiceContent(Lookup(result.members, "choices").value, c)
  }

  /** `choices` is missing or falsy in a dict body. */
  predicate NoChoices(result: Json)
    requires result.Object?
  {
    var choices := Lookup(result.members, "choices");
    choices.None? || !Truthy(choices.value)
  }

  /** The reply held by a truthy `choices`: its first entry's message content, refused when empty. */
  function FirstChoice(choices: Json): (r: Result<(int, Payload)>)
    ensures r.Ok? ==> r.value.0 in {200, 500}
    ensures r.Ok? ==> (r.value.0 == 200 <==> r.value.1.Reply?)
    ensures r.Ok? && r.value.0 == 200 ==> ChoiceContent(choices, r.value.1.reply) && Truthy(r.value.1.reply)
    ensures r.Ok? && r.value.0 == 500 ==> r.value.1 == Error(EmptyReply)
    ensures forall c :: ChoiceContent(choices, c) ==>
      r == if Truthy(c) then Ok((200, Reply(c))) else Ok((500, Error(EmptyReply)))
  {
    var first :- First(choices);
    var message :- Get(first, "message", Object([]));
    var content :- Get(message, "content", String(""));
    if !Truthy(content) then Ok((500, Error(EmptyReply))) else Ok((200, Reply(content)))
  }

  /** The answer when `choices` is missing or empty: `error.message`, or "API Error", with 500. */
  function MissingChoices(result: Json): (r: Result<(int, Payload)>)
    ensures r.Ok? <==> result.Object? && Lookup(result.members, "error").GetOr(Object([])).Object?
    ensures r.Ok? ==>
      var outer := Lookup(result.members, "error").GetOr(Object([]));
      r.value == (500, Error(Str(Lookup(outer.members, "message").GetOr(String(ApiError)))))
  {
    var outer :- Get(result, "error", Object([]));
    var message :- Get(outer, "message", String(ApiError));
    Ok((500, Error(Str(message))))
  }

  /** Reading a JSON body from the completion service: an error status reports the
      upstream message (502); missing choices report `error.message` or "API Error" (500);
      an empty content is refused (500); otherwise the content is the reply (200).
      Python exceptions on bodies of other shapes propagate. */
  function ReadBody(ok: bool, result: Json): (r: Result<(int, Payload)>)
    ensures r.Ok? ==> r.value.0 in {200, 500, 502}
    ensures r.Ok? ==> (r.value.0 == 200 <==> r.value.1.Reply?)
    ensures !ok ==> (r.Ok? <==> UpstreamErrorText(result).Ok?)
    ensures !ok && r.Ok? ==> r.value == (502, Error(UpstreamErrorText(result).value))
    ensures r.Ok? && r.value.0 == 200 ==> ok && CompletionContent(result, r.value.1.reply) && Truthy(r.value.1.reply)
    ensures ok && result.Object? && NoChoices(result) ==> r == MissingChoices(result)
    ensures ok && result.Object? && !NoChoices(result) ==> r == FirstChoice(Lookup(result.members, "choices").value)
  {
    if !ok then
      var text :- UpstreamErrorText(result);
      Ok((502, Error(text)))
    else
      var has :- Contains("choices", result);
      var choices :- if has then Subscript(result, "choices") else Ok(Null);
      if !has || !Truthy(choices) then MissingChoices(result)
      else FirstChoice(choices)
  }

  /** Mapping what the completion service did to the endpoint's answer: a timeout is 504,
      any other transport failure 502, a body that is not JSON 502 whatever the status,
      and any exception raised while reading the body falls into the catch-all 500. */
  function Normalize(u: Upstream): (r: (int, Payload))
    ensures r.0 in {200, 500, 502, 504}
    ensures r.0 == 200 <==> r.1.Reply?
    ensures u == Timeout <==> r == (504, Error(TimedOut))
    ensures u == ConnError ==> r == (502, Error(Unreachable))
    ensures u.Replied? && u.body.None? ==> r == (502, Error(InvalidResponse))
    ensures r.0 == 200 ==>
      && u.Replied? && u.ok && u.body.Some?
      && CompletionContent(u.body.value, r.1.reply) && Truthy(r.1.reply)
    ensures u.Replied? && u.body.Some? && ReadBody(u.ok, u.body.value).Ok? ==>
      r == ReadBody(u.ok, u.body.value).value
    ensures u.Replied? && u.body.Some? && ReadBody(u.ok, u.body.value).Raise? ==>
      r == (500, Error(ExceptionText(ReadBody(u.ok, u.body.value).exc)))
  {
    match u
    case Timeout => (504, Error(TimedOut))
    case ConnError => (502, Error(Unreachable))
    case Replied(ok, None) => (502, Error(InvalidResponse))
    case Replied(ok, Some(result)) =>
      match ReadBody(ok, result)
      case Ok(answer) => answer
      case Raise(e) => (500, Error(ExceptionText(e)))
  }

  /** The request passes validation and the digest is built: the upstream call is made. */
  predicate CallsUpstream(req: Request, apiKeySet: bool, profile: Profile) {
    && req.httpMethod == "POST"
    && req.body.Some? && req.body.value.Object?
    && Truthy(Field(req.body.value.members, "message"))
    && apiKeySet
    && ProfileLoaded(profile)
    && Compact.Compact(profile.data).Ok?
  }

  /** The loader returned a value other than `None`: the file existed, parsed, and did not hold `null`. */
  predicate ProfileLoaded(profile: Profile) {
    profile.Loaded? && profile.data != Null
  }

  /** `chat_api(request)`. */
  function Handle(req: Request, apiKeySet: bool, profile: Profile, t: Template, u: Upstream): (out: Outcome)
    ensures KnownStatus(out.status)
    ensures out.status == 200 <==> out.payload.Reply?
    ensures out.sent.Some? <==> CallsUpstream(req, apiKeySet, profile)
    ensures req.httpMethod != "POST" ==> out == Outcome(400, Error(InvalidRequest), None)
    ensures req.httpMethod == "POST" && req.body.None? ==> out == Outcome(400, Error(InvalidJson), None)
    ensures req.httpMethod == "POST" && req.body.Some? && !req.body.value.Object? ==>
      out == Outcome(500, Error(ExceptionText(AttributeError(TypeName(req.body.value), "get"))), None)
    ensures req.httpMethod == "POST" && req.body.Some? && req.body.value.Object? ==>
      && (!Truthy(Field(req.body.value.members, "message")) ==> out == Outcome(400, Error(MessageRequired), None))
      && (Truthy(Field(req.body.value.members, "message")) && !apiKeySet ==> out == Outcome(503, Error(NotConfigured), None))
      && (Truthy(Field(req.body.value.members, "message")) && apiKeySet && profile.Unreadable? ==>
            out == Outcome(500, Error(profile.reason), None))
      && (Truthy(Field(req.body.value.members, "message")) && apiKeySet && !profile.Unreadable? && !ProfileLoaded(profile) ==>
            out == Outcome(503, Error(ProfileMissing), None))
      && (Truthy(Field(req.body.value.members, "message")) && apiKeySet && ProfileLoaded(profile)
          && Compact.Compact(profile.data).Raise? ==>
            out == Outcome(500, Error(ExceptionText(Compact.Compact(profile.data).exc)), None))
    ensures out.sent.Some? ==>
      && out.sent.value == Conversation(t, Compact.Compact(profile.data).value, Field(req.body.value.members, "message"))
      && (out.status, out.payload) == Normalize(u)
  {
    if req.httpMethod != "POST" then Outcome(400, Error(InvalidRequest), None)
    else
      match req.body
      case None => Outcome(400, Error(InvalidJson), None)
      case Some(body) =>
        match Get(body, "message", Null)
        case Raise(e) => Outcome(500, Error(ExceptionText(e)), None)
        case Ok(input) =>
          if !Truthy(input) then Outcome(400, Error(MessageRequired), None)
          else if !apiKeySet then Outcome(503, Error(NotConfigured), None)
          else
            match profile
            case Absent => Outcome(503, Error(ProfileMissing), None)
            case Unreadable(reason) => Outcome(500, Error(reason), None)
            case Loaded(data) =>
              if data == Null then Outcome(503, Error(ProfileMissing), None)
              else
                match Compact.Compact(data)
                case Raise(e) => Outcome(500, Error(ExceptionText(e)), None)
                case Ok(digest) =>
                  var answer := Normalize(u);
                  Outcome(answer.0, answer.1, Some(Conversation(t, digest, input)))
  }

  /** When no upstream call is made, what the completion service would have done is irrelevant. */
  lemma NoCallIgnoresUpstream(req: Request, apiKeySet: bool, profile: Profile, t: Template, u1: Upstream, u2: Upstream)
    requires !CallsUpstream(req, apiKeySet, profile)
    ensures Handle(req, apiKeySet, profile, t, u1) == Handle(req, apiKeySet, profile, t, u2)
  {
  }

  /** The conversation sent upstream does not depend on the upstream outcome. */
  lemma ConversationFixedBeforeCall(req: Request, apiKeySet: bool, profile: Profile, t: Template, u1: Upstream, u2: Upstream)
    ensures Handle(req, apiKeySet, profile, t, u1).sent == Handle(req, apiKeySet, profile, t, u2).sent
  {
  }

  /** A successful answer carries the non-empty content of the first choice of an ok, JSON upstream reply. */
  lemma SuccessIsFirstChoice(req: Request, apiKeySet: bool, profile: Profile, t: Template, u: Upstream)
    requires Handle(req, apiKeySet, profile, t, u).status == 200
    ensures CallsUpstream(req, apiKeySet, profile)
    ensures u.Replied? && u.ok && u.body.Some?
    ensures CompletionContent(u.body.value, Handle(req, apiKeySet, profile, t, u).payload.reply)
  {
  }

  /** A reply with one choice whose content is "Hello" is answered with that content and status 200. */
  lemma HelloExample()
    ensures var result := Object([Member("choices", Array([
              Object([Member("message", Object([Member("content", String("Hello"))]))])]))]);
      Normalize(Replied(true, Some(result))) == (200, Reply(String("Hello")))
  {
    var message := Object([Member("content", String("Hello"))]);
    var result := Object([Member("choices", Array([Object([Member("message", message)])]))]);
    assert CompletionContent(result, String("Hello"));
  }

  /** An empty choices list without an upstream error is reported as "API Error" with status 500. */
  lemma EmptyChoicesExample()
    ensures Normalize(Replied(true, Some(Object([Member("choices", Array([]))])))) == (500, Error(ApiError))
  {
    var result := Object([Member("choices", Array([]))]);
    assert NoChoices(result);
  }

  /** The message of a failed upstream call: `error.message` when a string, the nested
      `message` when that is a dict, and "API Error" when there is no `error`. */
  lemma ErrorMessageUnwrapped(m: string, inner: Json)
    ensures UpstreamErrorText(Object([Member("error", Object([Member("message", String(m))]))])) == Ok(m)
    ensures UpstreamErrorText(Object([Member("error", Object([Member("message",
              Object([Member("message", inner)]))]))])) == Ok(Str(inner))
    ensures UpstreamErrorText(Object([])) == Ok(ApiError)
  {
  }

  /** A string-valued `error` on a failed call raises (`.get` on a str), which the endpoint reports as 500. */
  lemma StringErrorRaises(e: string)
    ensures Normalize(Replied(false, Some(Object([Member("error", String(e))]))))
            == (500, Error(ExceptionText(AttributeError("str", "get"))))
  {
    var result := Object([Member("error", String(e))]);
    assert UpstreamErrorText(result) == Raise(AttributeError("str", "get"));
    assert ReadBody(false, result) == Raise(AttributeError("str", "get"));
  }

  /** Any truthy `message` is forwarded as given; its type is not checked. */
  lemma TruthyMessageForwarded(input: Json, data: Json, t: Template, u: Upstream)
    requires Truthy(input) && data != Null && Compact.Compact(data).Ok?
    ensures var out := Handle(Request("POST", Some(Object([Member("message", input)]))), true, Loaded(data), t, u);
      out.sent.Some? && out.sent.value[1] == ChatMessage(User, input)
  {
    var body := Object([Member("message", input)]);
    assert Field(body.members, "message") == input;
  }
}

=== FILE: compact.dfy ===
/** The profile digest (`_compact_about`): a short plain-text rendering of the
    portfolio profile, built from up to seven labelled sections in a fixed
    order and joined by newlines, with caps on projects, overview length and
    skills. */
module Compact {
  import opened Wrappers
  import opened Json
  import opened Py
  import Text

  const MaxProjects: nat := 6
  const OverviewLimit: nat := 120
  const SkillsPerCategory: nat := 8
  const MaxSkills: nat := 20

  datatype Section =
    | NameSection | SummarySection | EducationSection | InternshipSection
    | ProjectsSection | SkillsSection | FocusSection

  /** Position of a section in the digest. */
  function Rank(s: Section): nat {
    match s
    case NameSection => 0
    case SummarySection => 1
    case EducationSection => 2
    case InternshipSection => 3
    case ProjectsSection => 4
    case SkillsSection => 5
    case FocusSection => 6
  }

  /** Every section, in digest order. */
  const Order: seq<Section> :=
    [NameSection, SummarySection, EducationSection, InternshipSection, ProjectsSection, SkillsSection, FocusSection]

  /** The text each section line starts with. */
  function Label(s: Section): string {
    match s
    case NameSection => "Name: "
    case SummarySection => "Summary: "
    case EducationSection => "Education: "
    case InternshipSection => "Internship: "
    case ProjectsSection => "Projects: "
    case SkillsSection => "Skills: "
    case FocusSection => "Focus: "
  }

  datatype Part = Part(section: Section, text: string)

  function Texts(parts: seq<Part>): (r: seq<string>)
    ensures |r| == |parts|
    ensures forall i :: 0 <= i < |parts| ==> r[i] == parts[i].text
  {
    seq(|parts|, i requires 0 <= i < |parts| => parts[i].text)
  }

  /** `{d.get(key, '')}` inside an f-string: a missing key shows as nothing. */
  function FieldText(d: seq<Member>, key: string): (r: string)
    ensures Lookup(d, key).None? ==> r == ""
    ensures Lookup(d, key).Some? ==> r == Str(Lookup(d, key).value)
  {
    Str(Lookup(d, key).GetOr(String("")))
  }

  // ---------------------------------------------------------------- projects

  /** `p.get("name")` for a dict project, `None` otherwise. */
  function ProjectName(p: Json): Json {
    if p.Object? then Field(p.members, "name") else Null
  }

  /** `p.get("overview", "")` for a dict project, `""` otherwise. */
  function ProjectOverview(p: Json): Json {
    if p.Object? then Lookup(p.members, "overview").GetOr(String("")) else String("")
  }

  /** The bullet for one project: `- name: overview`, or `- name` when the overview is empty. */
  function Bullet(name: Json, overview: string): string {
    if overview == "" then "- " + Str(name) else "- " + Str(name) + ": " + overview
  }

  /** The line one project contributes: none without a truthy name; otherwise a bullet
      whose overview is cut to its first 120 characters. Cutting an overview that is
      neither a string nor a list raises. */
  function ProjectLine(p: Json): (r: Result<Option<string>>)
    ensures r.Raise? <==>
      Truthy(ProjectName(p)) && Truthy(ProjectOverview(p))
      && !ProjectOverview(p).String? && !ProjectOverview(p).Array?
    ensures r.Ok? ==> (r.value.Some? <==> Truthy(ProjectName(p)))
    ensures Truthy(ProjectName(p)) && ProjectOverview(p).String? ==>
      var ov := ProjectOverview(p).s;
      && r == Ok(Some(Bullet(ProjectName(p), Text.Take(ov, OverviewLimit))))
      && |Text.Take(ov, OverviewLimit)| <= OverviewLimit
      && Text.Take(ov, OverviewLimit) <= ov
    ensures r.Ok? && r.value.Some? ==> ("- " + Str(ProjectName(p))) <= r.value.value
    ensures Truthy(ProjectName(p)) && !Truthy(ProjectOverview(p)) ==> r == Ok(Some("- " + Str(ProjectName(p))))
  {
    var name := ProjectName(p);
    var overview := ProjectOverview(p);
    if !Truthy(name) then Ok(None)
    else if !Truthy(overview) then Ok(Some("- " + Str(name)))
    else
      var cut :- SliceTo(overview, OverviewLimit);
      Ok(Some("- " + Str(name) + ": " + Str(cut)))
  }

  /** How many projects have a truthy name. */
  function NamedCount(ps: seq<Json>): nat {
    if |ps| == 0 then 0
    else (if Truthy(ProjectName(ps[0])) then 1 else 0) + NamedCount(ps[1..])
  }

  lemma {:induction false} NamedCountPositive(ps: seq<Json>)
    ensures NamedCount(ps) > 0 <==> exists i :: 0 <= i < |ps| && Truthy(ProjectName(ps[i]))
  {
    if |ps| > 0 {
      NamedCountPositive(ps[1..]);
      if Truthy(ProjectName(ps[0])) {
      } else {
        forall i | 1 <= i < |ps| && Truthy(ProjectName(ps[i]))
          ensures exists j :: 0 <= j < |ps[1..]| && Truthy(ProjectName(ps[1..][j]))
        {
          assert ps[1..][i - 1] == ps[i];
        }
      }
    }
  }

  /** A project with a truthy name, which the loop turns into a line. */
  predicate Named(p: Json) {
    Truthy(ProjectName(p))
  }

  /** The positions, from `k` on, of the items of `xs` that `keep` accepts, in list order. */
  function Positions<T>(keep: T -> bool, xs: seq<T>, k: nat): (r: seq<nat>)
    ensures forall j :: 0 <= j < |r| ==> k <= r[j] < |xs|
    decreases |xs| - k
  {
    if k >= |xs| then []
    else (if keep(xs[k]) then [k] else []) + Positions(keep, xs, k + 1)
  }

  /** Every listed position holds an accepted item. */
  lemma {:induction false} PositionsSound<T>(keep: T -> bool, xs: seq<T>, k: nat)
    ensures forall j :: 0 <= j < |Positions(keep, xs, k)| ==> keep(xs[Positions(keep, xs, k)[j]])
    decreases |xs| - k
  {
    if k < |xs| {
      PositionsSound(keep, xs, k + 1);
      var rest := Positions(keep, xs, k + 1);
      if keep(xs[k]) {
        assert Positions(keep, xs, k) == [k] + rest;
      } else {
        assert Positions(keep, xs, k) == rest;
      }
    }
  }

  /** Positions are listed in increasing order. */
  lemma {:induction false} PositionsIncreasing<T>(keep: T -> bool, xs: seq<T>, k: nat)
    ensures forall j1, j2 :: 0 <= j1 < j2 < |Positions(keep, xs, k)| ==> Positions(keep, xs, k)[j1] < Positions(keep, xs, k)[j2]
    decreases |xs| - k
  {
    if k < |xs| {
      PositionsIncreasing(keep, xs, k + 1);
      var rest := Positions(keep, xs, k + 1);
      var r := Positions(keep, xs, k);
      if keep(xs[k]) {
        assert r == [k] + rest;
        forall j1, j2 | 0 <= j1 < j2 < |r| ensures r[j1] < r[j2] {
          assert r[j2] == rest[j2 - 1];
          if j1 > 0 {
            assert r[j1] == rest[j1 - 1];
          }
        }
      } else {
        assert r == rest;
      }
    }
  }

  /** Every accepted position from `k` on is listed. */
  lemma {:induction false} PositionsComplete<T>(keep: T -> bool, xs: seq<T>, k: nat)
    ensures forall i :: k <= i < |xs| && keep(xs[i]) ==> i in Positions(keep, xs, k)
    decreases |xs| - k
  {
    if k < |xs| {
      PositionsComplete(keep, xs, k + 1);
      var rest := Positions(keep, xs, k + 1);
      if keep(xs[k]) {
        assert Positions(keep, xs, k) == [k] + rest;
      } else {
        assert Positions(keep, xs, k) == rest;
      }
    }
  }

  /** The two counts of named projects agree: `NamedCount` counts what `Positions` lists. */
  lemma {:induction false} NamedCountIsPositions(ps: seq<Json>, k: nat)
    requires k <= |ps|
    ensures NamedCount(ps[k..]) == |Positions(Named, ps, k)|
    decreases |ps| - k
  {
    if k < |ps| {
      NamedCountIsPositions(ps, k + 1);
      assert ps[k..][1..] == ps[k + 1..];
      assert ps[k..][0] == ps[k];
    }
  }

  /** The lines of the projects loop, one per project with a truthy name, in order. */
  function ProjectLines(ps: seq<Json>): (r: Result<seq<string>>)
    ensures r.Ok? ==> |r.value| == NamedCount(ps) <= |ps|
    ensures r.Ok? <==> forall i :: 0 <= i < |ps| ==> ProjectLine(ps[i]).Ok?
  {
    if |ps| == 0 then Ok([])
    else
      var line :- ProjectLine(ps[0]);
      var rest :- ProjectLines(ps[1..]);
      Ok(line.ToSeq() + rest)
  }

  /** The projects value is a list with a truthy-named project among its first six. */
  predicate HasNamedProject(projects: Json) {
    projects.Array? && exists i :: 0 <= i < |projects.items| && i < MaxProjects && Truthy(ProjectName(projects.items[i]))
  }

  /** The lines of the projects loop over `ps[k..]` are the lines of its named projects, in order. */
  lemma {:induction false} ProjectLinesFrom(ps: seq<Json>, k: nat)
    requires k <= |ps| && ProjectLines(ps[k..]).Ok?
    ensures var lines := ProjectLines(ps[k..]).value;
      var idx := Positions(Named, ps, k);
      && |lines| == |idx|
      && forall j :: 0 <= j < |idx| ==> ProjectLine(ps[idx[j]]) == Ok(Some(lines[j]))
    decreases |ps| - k
  {
    if k < |ps| {
      var tail := ps[k..];
      assert tail[0] == ps[k] && tail[1..] == ps[k + 1..];
      ProjectLinesFrom(ps, k + 1);
      var rest, idxRest := ProjectLines(ps[k + 1..]).value, Positions(Named, ps, k + 1);
      var lines, idx := ProjectLines(tail).value, Positions(Named, ps, k);
      assert ProjectLine(ps[k]).Ok?;
      if Named(ps[k]) {
        var line := ProjectLine(ps[k]).value.value;
        assert lines == [line] + rest;
        assert idx == [k] + idxRest;
        LineAtFront(ProjectLine, ps, k, line, idxRest, rest);
      } else {
        assert lines == rest && idx == idxRest;
      }
    }
  }

  /** Pairing positions with lines, one more pair at the front. */
  lemma LineAtFront(f: Json -> Result<Option<string>>, ps: seq<Json>, k: nat, line: string, idx: seq<nat>, lines: seq<string>)
    requires k < |ps| && |idx| == |lines|
    requires forall j :: 0 <= j < |idx| ==> idx[j] < |ps|
    requires f(ps[k]) == Ok(Some(line))
    requires forall j :: 0 <= j < |idx| ==> f(ps[idx[j]]) == Ok(Some(lines[j]))
    ensures forall j :: 0 <= j < |idx| + 1 ==> f(ps[([k] + idx)[j]]) == Ok(Some(([line] + lines)[j]))
  {
    forall j | 0 <= j < |idx| + 1 ensures f(ps[([k] + idx)[j]]) == Ok(Some(([line] + lines)[j])) {
      if j > 0 {
        assert ([k] + idx)[j] == idx[j - 1] && ([line] + lines)[j] == lines[j - 1];
      }
    }
  }

  /** The projects loop yields exactly the bullets of the projects with a truthy name,
      one each, in list order: the `j`-th line is the bullet of the `j`-th named project. */
  lemma ProjectLinesBullets(ps: seq<Json>)
    requires ProjectLines(ps).Ok?
    ensures var lines := ProjectLines(ps).value;
      var idx := Positions(Named, ps, 0);
      && |lines| == |idx|
      && (forall j :: 0 <= j < |idx| ==> ProjectLine(ps[idx[j]]) == Ok(Some(lines[j])))
      && (forall j :: 0 <= j < |idx| ==> Named(ps[idx[j]]))
      && (forall j1, j2 :: 0 <= j1 < j2 < |idx| ==> idx[j1] < idx[j2])
      && (forall i :: 0 <= i < |ps| && Named(ps[i]) ==> i in idx)
  {
    assert ps[0..] == ps;
    ProjectLinesFrom(ps, 0);
    PositionsSound(Named, ps, 0);
    PositionsIncreasing(Named, ps, 0);
    PositionsComplete(Named, ps, 0);
  }

  /** The Projects section: a truthy list of projects, of which the first six are
      examined; present only when at least one of them yields a line, and then the
      space-joined lines of the first six. */
  function ProjectsText(projects: Json): (r: Result<Option<string>>)
    ensures r.Ok? && r.value.Some? ==> Label(ProjectsSection) <= r.value.value
    ensures !projects.Array? ==> r == Ok(None)
    ensures r.Raise? <==> projects.Array? && ProjectLines(Text.Take(projects.items, MaxProjects)).Raise?
    ensures r.Ok? && r.value.Some? ==>
      var lines := ProjectLines(Text.Take(projects.items, MaxProjects));
      && lines.Ok? && |lines.value| > 0
      && r.value.value == "Projects: " + Text.Join(" ", lines.value)
  {
    if projects.Array? && |projects.items| > 0 then
      var lines :- ProjectLines(Text.Take(projects.items, MaxProjects));
      if |lines| > 0 then Ok(Some("Projects: " + Text.Join(" ", lines))) else Ok(None)
    else Ok(None)
  }

  /** Projects after the sixth never affect the digest. */
  lemma ProjectsAfterSixthIgnored(ps: seq<Json>, extra: seq<Json>)
    requires |ps| >= MaxProjects
    ensures ProjectsText(Array(ps + extra)) == ProjectsText(Array(ps))
  {
    assert Text.Take(ps + extra, MaxProjects) == Text.Take(ps, MaxProjects);
  }

  /** The Projects section is present exactly when one of the first six projects has a truthy name. */
  lemma ProjectsPresent(projects: Json)
    requires ProjectsText(projects).Ok?
    ensures ProjectsText(projects).value.Some? <==> HasNamedProject(projects)
  {
    if projects.Array? && |projects.items| > 0 {
      var firsts := Text.Take(projects.items, MaxProjects);
      NamedCountPositive(firsts);
      if HasNamedProject(projects) {
        var i :| 0 <= i < |projects.items| && i < MaxProjects && Truthy(ProjectName(projects.items[i]));
        assert firsts[i] == projects.items[i];
      }
    }
  }

  // ------------------------------------------------------------------ skills

  /** What one skills category contributes: the first eight entries of a list,
      `str(v)` of any other truthy value, nothing otherwise. */
  function Contribution(v: Json): (r: seq<Json>)
    ensures |r| <= SkillsPerCategory
    ensures v.Array? ==> r <= v.items && |r| == if |v.items| < SkillsPerCategory then |v.items| else SkillsPerCategory
    ensures !v.Array? ==> (Truthy(v) <==> r == [String(Str(v))]) && (!Truthy(v) <==> r == [])
  {
    if v.Array? then Text.Take(v.items, SkillsPerCategory)
    else if Truthy(v) then [String(Str(v))]
    else []
  }

  /** The flattened skills list, categories in dict order. */
  function SkillEntries(vs: seq<Json>): seq<Json> {
    if |vs| == 0 then [] else Contribution(vs[0]) + SkillEntries(vs[1..])
  }

  /** Each category contributes at most eight entries, so the list is bounded by the number of categories. */
  lemma {:induction false} SkillEntriesBound(vs: seq<Json>)
    ensures |SkillEntries(vs)| <= SkillsPerCategory * |vs|
  {
    if |vs| > 0 {
      SkillEntriesBound(vs[1..]);
    }
  }

  /** The list is empty exactly when no category contributes. */
  lemma {:induction false} SkillEntriesEmpty(vs: seq<Json>)
    ensures SkillEntries(vs) == [] <==> forall i :: 0 <= i < |vs| ==> Contribution(vs[i]) == []
  {
    if |vs| > 0 {
      SkillEntriesEmpty(vs[1..]);
      assert SkillEntries(vs) == Contribution(vs[0]) + SkillEntries(vs[1..]);
      assert (forall i :: 0 <= i < |vs| ==> Contribution(vs[i]) == [])
        <==> Contribution(vs[0]) == [] && forall i :: 0 <= i < |vs[1..]| ==> Contribution(vs[1..][i]) == [];
    }
  }

  /** Extending the category list appends that category's contribution. */
  lemma {:induction false} SkillEntriesSnoc(vs: seq<Json>, v: Json)
    ensures SkillEntries(vs + [v]) == SkillEntries(vs) + Contribution(v)
  {
    if |vs| == 0 {
      assert vs + [v] == [v];
    } else {
      assert (vs + [v])[1..] == vs[1..] + [v];
      SkillEntriesSnoc(vs[1..], v);
    }
  }

  /** The skills loop, `all_skills.extend(v[:8])` / `all_skills.append(str(v))` per category. */
  method CollectSkills(values: seq<Json>) returns (all: seq<Json>)
    ensures all == SkillEntries(values)
  {
    all := [];
    var i := 0;
    while i < |values|
      invariant 0 <= i <= |values|
      invariant all == SkillEntries(values[..i])
    {
      SkillEntriesSnoc(values[..i], values[i]);
      assert values[..i + 1] == values[..i] + [values[i]];
      all := all + Contribution(values[i]);
      i := i + 1;
    }
    assert values[..i] == values;
  }

  /** The skills value is a dict with a truthy category value. */
  predicate HasTruthyCategory(skills: Json) {
    skills.Object? && exists i :: 0 <= i < |skills.members| && Truthy(skills.members[i].value)
  }

  /** The Skills section: present when the flattened list is non-empty; shows its first
      twenty entries, which must all be strings. */
  function SkillsText(skills: Json): (r: Result<Option<string>>)
    ensures r.Ok? && r.value.Some? ==> Label(SkillsSection) <= r.value.value
    ensures !skills.Object? ==> r == Ok(None)
    ensures skills.Object? ==>
      var entries := SkillEntries(Values(skills.members));
      && (r.Ok? && r.value.Some? <==> |entries| > 0 && forall i :: 0 <= i < |entries| && i < MaxSkills ==> entries[i].String?)
      && (r.Raise? <==> |entries| > 0 && exists i :: 0 <= i < |entries| && i < MaxSkills && !entries[i].String?)
  {
    if skills.Object? then
      var entries := SkillEntries(Values(skills.members));
      if |entries| > 0 then
        var shown :- JoinStrings(", ", Text.Take(entries, MaxSkills));
        Ok(Some("Skills: " + shown))
      else Ok(None)
    else Ok(None)
  }

  /** A successful Skills section lists exactly the first twenty entries (or all, if fewer). */
  lemma SkillsShown(skills: Json)
    requires SkillsText(skills).Ok? && SkillsText(skills).value.Some?
    ensures var shown := Text.Take(SkillEntries(Values(skills.members)), MaxSkills);
      && 0 < |shown| <= MaxSkills
      && SkillsText(skills).value.value
         == "Skills: " + Text.Join(", ", seq(|shown|, i requires 0 <= i < |shown| => shown[i].s))
  {
  }

  // ---------------------------------------------------------------- sections

  /** `Education: degree from institution (year)`, missing fields shown as empty; the
      closing parenthesis leaves strip nothing to remove. */
  function EducationLine(ed: seq<Member>): (r: string)
    ensures Label(EducationSection) <= r
    ensures r == "Education: " + FieldText(ed, "degree") + " from "
                 + FieldText(ed, "institution") + " (" + FieldText(ed, "year") + ")"
  {
    var line := "Education: " + FieldText(ed, "degree") + " from "
                + FieldText(ed, "institution") + " (" + FieldText(ed, "year") + ")";
    assert line[0] == 'E' && line[|line| - 1] == ')';
    Text.Strip(line)
  }

  /** `Internship: role at company, duration`, missing fields shown as empty, trailing
      whitespace stripped (never past the comma). */
  function InternshipLine(intern: seq<Member>): (r: string)
    ensures Label(InternshipSection) <= r
    ensures var upToComma := "Internship: " + FieldText(intern, "role") + " at " + FieldText(intern, "company") + ",";
      && upToComma <= r
      && r == Text.StripRight(upToComma + " " + FieldText(intern, "duration"))
  {
    var role, company, duration := FieldText(intern, "role"), FieldText(intern, "company"), FieldText(intern, "duration");
    InternshipShape(role, company, duration);
    Text.Strip("Internship: " + role + " at " + company + "," + " " + duration)
  }

  /** The internship f-string starts with its label and has a comma before the duration,
      so strip only trims the end and never reaches the comma. */
  lemma InternshipShape(role: string, company: string, duration: string)
    ensures var upToComma := "Internship: " + role + " at " + company + ",";
      var line := Text.Strip(upToComma + " " + duration);
      && line == Text.StripRight(upToComma + " " + duration)
      && upToComma <= line
      && Label(InternshipSection) <= line
  {
    var upToComma := "Internship: " + role + " at " + company + ",";
    assert upToComma[0] == 'I';
    assert upToComma + " " + duration == upToComma + (" " + duration);
    Text.StripKeepsHead(upToComma, " " + duration);
    var line := Text.Strip(upToComma + " " + duration);
    var n := |Label(InternshipSection)|;
    assert line[..n] == upToComma[..n] == Label(InternshipSection);
  }

  /** When a section appears: a truthy name, summary or focus; an education dict with a
      truthy degree or institution; an internship dict with a truthy company; a list of
      projects with a truthy name among its first six; a skills dict with a truthy value. */
  predicate Guard(d: seq<Member>, s: Section) {
    match s
    case NameSection => Truthy(Field(d, "name"))
    case SummarySection => Truthy(Field(d, "summary"))
    case EducationSection =>
      var ed := Field(d, "education");
      ed.Object? && (Truthy(Field(ed.members, "degree")) || Truthy(Field(ed.members, "institution")))
    case InternshipSection =>
      var intern := Field(d, "internship");
      intern.Object? && Truthy(Field(intern.members, "company"))
    case ProjectsSection =>
      HasNamedProject(Field(d, "projects"))
    case SkillsSection =>
      HasTruthyCategory(Field(d, "skills"))
    case FocusSection => Truthy(Field(d, "focus"))
  }

  /** The line of each section, given the outcome of the projects and skills loops. */
  function SectionText(d: seq<Member>, projects: Option<string>, skills: Option<string>, s: Section): (r: Option<string>)
    ensures s != ProjectsSection && s != SkillsSection ==> (r.Some? <==> Guard(d, s))
    ensures s == NameSection && r.Some? ==> r.value == "Name: " + Str(Field(d, "name"))
    ensures s == SummarySection && r.Some? ==> r.value == "Summary: " + Str(Field(d, "summary"))
    ensures s == EducationSection && r.Some? ==> r.value == EducationLine(Field(d, "education").members)
    ensures s == InternshipSection && r.Some? ==> r.value == InternshipLine(Field(d, "internship").members)
    ensures s == FocusSection && r.Some? ==> r.value == "Focus: " + Str(Field(d, "focus"))
    ensures s == ProjectsSection ==> r == projects
    ensures s == SkillsSection ==> r == skills
  {
    match s
    case NameSection =>
      if Guard(d, s) then Some("Name: " + Str(Field(d, "name"))) else None
    case SummarySection =>
      if Guard(d, s) then Some("Summary: " + Str(Field(d, "summary"))) else None
    case EducationSection =>
      if Guard(d, s) then Some(EducationLine(Field(d, "education").members)) else None
    case InternshipSection =>
      if Guard(d, s) then Some(InternshipLine(Field(d, "internship").members)) else None
    case ProjectsSection => projects
    case SkillsSection => skills
    case FocusSection =>
      if Guard(d, s) then Some("Focus: " + Str(Field(d, "focus"))) else None
  }

  /** One part per section in `secs` whose text is present, in the order of `secs`. */
  function Collect(secs: seq<Section>, text: Section -> Option<string>): (r: seq<Part>)
    ensures |r| <= |secs|
  {
    if |secs| == 0 then []
    else
      (if text(secs[0]).Some? then [Part(secs[0], text(secs[0]).value)] else [])
      + Collect(secs[1..], text)
  }

  predicate Increasing(secs: seq<Section>) {
    forall i, j :: 0 <= i < j < |secs| ==> Rank(secs[i]) < Rank(secs[j])
  }

  /** Parts whose sections strictly follow digest order. */
  predicate InOrder(parts: seq<Part>) {
    forall i, j :: 0 <= i < j < |parts| ==> Rank(parts[i].section) < Rank(parts[j].section)
  }

  /** Every collected part comes from `secs` and carries that section's text. */
  lemma {:induction false} CollectSound(secs: seq<Section>, text: Section -> Option<string>)
    ensures forall i :: 0 <= i < |Collect(secs, text)| ==>
      Collect(secs, text)[i].section in secs
      && text(Collect(secs, text)[i].section) == Some(Collect(secs, text)[i].text)
  {
    if |secs| > 0 {
      CollectSound(secs[1..], text);
      var rest := Collect(secs[1..], text);
      var r := Collect(secs, text);
      forall i | 0 <= i < |r|
        ensures r[i].section in secs && text(r[i].section) == Some(r[i].text)
      {
        if text(secs[0]).Some? && i == 0 {
        } else {
          var k := if text(secs[0]).Some? then i - 1 else i;
          assert r[i] == rest[k];
          assert rest[k].section in secs[1..];
        }
      }
    }
  }

  /** Every section of `secs` whose text is present is collected. */
  lemma {:induction false} CollectComplete(secs: seq<Section>, text: Section -> Option<string>, s: Section)
    requires s in secs && text(s).Some?
    ensures exists i :: 0 <= i < |Collect(secs, text)| && Collect(secs, text)[i].section == s
  {
    var r := Collect(secs, text);
    if s == secs[0] {
      assert r[0].section == s;
    } else {
      assert s in secs[1..];
      CollectComplete(secs[1..], text, s);
      var rest := Collect(secs[1..], text);
      var k :| 0 <= k < |rest| && rest[k].section == s;
      var h := if text(secs[0]).Some? then 1 else 0;
      assert r[h + k] == rest[k];
    }
  }

  /** Collecting from sections in digest order yields parts in digest order. */
  lemma {:induction false} CollectOrdered(secs: seq<Section>, text: Section -> Option<string>)
    requires Increasing(secs)
    ensures InOrder(Collect(secs, text))
  {
    if |secs| > 0 {
      assert Increasing(secs[1..]);
      CollectOrdered(secs[1..], text);
      CollectSound(secs[1..], text);
      var rest := Collect(secs[1..], text);
      var r := Collect(secs, text);
      if text(secs[0]).Some? {
        assert r == [Part(secs[0], text(secs[0]).value)] + rest;
        forall i, j | 0 <= i < j < |r| ensures Rank(r[i].section) < Rank(r[j].section) {
          assert r[j] == rest[j - 1];
          if i > 0 {
            assert r[i] == rest[i - 1];
          } else {
            var s := rest[j - 1].section;
            assert s in secs[1..];
            var k :| 0 <= k < |secs[1..]| && secs[1..][k] == s;
            assert secs[k + 1] == s;
          }
        }
      } else {
        assert r == rest;
      }
    }
  }

  /** The digest's parts: every section whose guard holds, in digest order. The source
      appends Name through Internship before running the projects and skills loops; the
      model runs the loops first, which gives the same result because those four lines
      cannot raise, so either loop raising aborts the digest in both orders. */
  function Parts(d: seq<Member>): (r: Result<seq<Part>>)
    ensures r.Ok? ==> |r.value| <= |Order|
  {
    var projects :- ProjectsText(Field(d, "projects"));
    var skills :- SkillsText(Field(d, "skills"));
    Ok(Collect(Order, s => SectionText(d, projects, skills, s)))
  }

  /** `_compact_about(data)`: `str(data)` for a falsy or non-dict value, otherwise the
      newline-joined parts. */
  function Compact(data: Json): (r: Result<string>)
    ensures !Truthy(data) || !data.Object? ==> r == Ok(Str(data))
    ensures Truthy(data) && data.Object? ==> (r.Ok? <==> Parts(data.members).Ok?)
  {
    if !Truthy(data) || !data.Object? then Ok(Str(data))
    else
      var parts :- Parts(data.members);
      Ok(Text.Join("\n", Texts(parts)))
  }

  /** The skills list is non-empty exactly when some category value is truthy. */
  lemma SkillsPresent(skills: Json)
    requires skills.Object?
    ensures SkillEntries(Values(skills.members)) != [] <==> HasTruthyCategory(skills)
  {
    var vs := Values(skills.members);
    SkillEntriesEmpty(vs);
    forall i | 0 <= i < |vs| ensures Contribution(vs[i]) == [] <==> !Truthy(skills.members[i].value) {
      assert vs[i] == skills.members[i].value;
    }
  }

  /** Each present section line starts with its label. */
  lemma SectionLabelled(d: seq<Member>, projects: Option<string>, skills: Option<string>, s: Section)
    requires projects.Some? ==> Label(ProjectsSection) <= projects.value
    requires skills.Some? ==> Label(SkillsSection) <= skills.value
    ensures SectionText(d, projects, skills, s).Some? ==> Label(s) <= SectionText(d, projects, skills, s).value
  {
    var r := SectionText(d, projects, skills, s);
    if r.Some? {
      match s
      case NameSection => PrefixOfConcat("Name: ", Str(Field(d, "name")));
      case SummarySection => PrefixOfConcat("Summary: ", Str(Field(d, "summary")));
      case FocusSection => PrefixOfConcat("Focus: ", Str(Field(d, "focus")));
      case _ =>
    }
  }

  lemma PrefixOfConcat(a: string, b: string)
    ensures a <= a + b
  {
  }

  /** The sections in digest order. */
  lemma OrderIncreasing()
    ensures Increasing(Order)
  {
  }

  /** The parts collected for given loop outcomes are in digest order and labelled. */
  lemma CollectedInOrder(d: seq<Member>, projects: Option<string>, skills: Option<string>)
    requires projects.Some? ==> Label(ProjectsSection) <= projects.value
    requires skills.Some? ==> Label(SkillsSection) <= skills.value
    ensures var parts := Collect(Order, s => SectionText(d, projects, skills, s));
      && InOrder(parts)
      && (forall i :: 0 <= i < |parts| ==> Label(parts[i].section) <= parts[i].text)
  {
    var text := s => SectionText(d, projects, skills, s);
    var parts := Collect(Order, text);
    CollectSound(Order, text);
    OrderIncreasing();
    CollectOrdered(Order, text);
    forall i | 0 <= i < |parts| ensures Label(parts[i].section) <= parts[i].text {
      SectionLabelled(d, projects, skills, parts[i].section);
    }
  }

  /** Every section is in `Order`. */
  lemma InOrderAll(s: Section)
    ensures s in Order
  {
    assert Order[Rank(s)] == s;
  }

  /** A section of `secs` is collected exactly when its text is present. */
  lemma CollectPresent(secs: seq<Section>, text: Section -> Option<string>, s: Section)
    requires s in secs
    ensures (exists i :: 0 <= i < |Collect(secs, text)| && Collect(secs, text)[i].section == s) <==> text(s).Some?
  {
    CollectSound(secs, text);
    if text(s).Some? {
      CollectComplete(secs, text, s);
    }
  }

  /** A section line is present exactly when its guard holds, given loop outcomes that agree with the guards. */
  lemma SectionGuarded(d: seq<Member>, projects: Option<string>, skills: Option<string>, s: Section)
    requires projects.Some? <==> Guard(d, ProjectsSection)
    requires skills.Some? <==> Guard(d, SkillsSection)
    ensures SectionText(d, projects, skills, s).Some? <==> Guard(d, s)
  {
  }

  /** The projects loop yields a line exactly when the Projects guard holds. */
  lemma ProjectsGuarded(d: seq<Member>)
    requires ProjectsText(Field(d, "projects")).Ok?
    ensures ProjectsText(Field(d, "projects")).value.Some? <==> Guard(d, ProjectsSection)
  {
    ProjectsPresent(Field(d, "projects"));
  }

  /** The skills loop yields a line exactly when the Skills guard holds. */
  lemma SkillsGuarded(d: seq<Member>)
    requires SkillsText(Field(d, "skills")).Ok?
    ensures SkillsText(Field(d, "skills")).value.Some? <==> Guard(d, SkillsSection)
  {
    var skills := Field(d, "skills");
    if skills.Object? {
      SkillsPresent(skills);
    }
  }

  /** The parts of a profile dict follow digest order and start with their labels. */
  lemma PartsOrdered(d: seq<Member>, parts: seq<Part>)
    requires Parts(d) == Ok(parts)
    ensures InOrder(parts)
    ensures forall i :: 0 <= i < |parts| ==> Label(parts[i].section) <= parts[i].text
  {
    var projects := ProjectsText(Field(d, "projects")).value;
    var skills := SkillsText(Field(d, "skills")).value;
    assert parts == Collect(Order, s => SectionText(d, projects, skills, s));
    CollectedInOrder(d, projects, skills);
  }

  /** The digest of a truthy dict is its parts' texts joined by newlines. */
  lemma CompactJoinsParts(data: Json, parts: seq<Part>)
    requires Truthy(data) && data.Object?
    requires Parts(data.members) == Ok(parts)
    ensures Compact(data) == Ok(Text.Join("\n", Texts(parts)))
  {
  }

  /** Each part of a profile dict carries its section's line. */
  lemma PartsTexts(d: seq<Member>, parts: seq<Part>)
    requires Parts(d) == Ok(parts)
    ensures forall i :: 0 <= i < |parts| ==>
      SectionText(d, ProjectsText(Field(d, "projects")).value, SkillsText(Field(d, "skills")).value, parts[i].section)
      == Some(parts[i].text)
  {
    var projects := ProjectsText(Field(d, "projects")).value;
    var skills := SkillsText(Field(d, "skills")).value;
    var text := s => SectionText(d, projects, skills, s);
    assert parts == Collect(Order, text);
    CollectSound(Order, text);
  }

  /** A section is among the parts of a profile dict exactly when its guard holds. */
  lemma PartsGuarded(d: seq<Member>, parts: seq<Part>, s: Section)
    requires Parts(d) == Ok(parts)
    ensures (exists i :: 0 <= i < |parts| && parts[i].section == s) <==> Guard(d, s)
  {
    ProjectsGuarded(d);
    SkillsGuarded(d);
    var projects := ProjectsText(Field(d, "projects")).value;
    var skills := SkillsText(Field(d, "skills")).value;
    var text := s => SectionText(d, projects, skills, s);
    assert parts == Collect(Order, text);
    InOrderAll(s);
    CollectPresent(Order, text, s);
    SectionGuarded(d, projects, skills, s);
  }

  /** The digest of a profile dict is its section lines joined by newlines: at most seven,
      in the order Name, Summary, Education, Internship, Projects, Skills, Focus, each
      starting with its label, and a section appears exactly when its guard holds. */
  lemma DigestSections(data: Json, parts: seq<Part>)
    requires Truthy(data) && data.Object?
    requires Parts(data.members) == Ok(parts)
    ensures Compact(data) == Ok(Text.Join("\n", Texts(parts)))
    ensures |parts| <= 7
    ensures InOrder(parts)
    ensures forall i :: 0 <= i < |parts| ==> Label(parts[i].section) <= parts[i].text
    ensures forall s :: (exists i :: 0 <= i < |parts| && parts[i].section == s) <==> Guard(data.members, s)
    ensures forall i :: 0 <= i < |parts| ==>
      SectionText(data.members, ProjectsText(Field(data.members, "projects")).value,
                  SkillsText(Field(data.members, "skills")).value, parts[i].section) == Some(parts[i].text)
  {
    CompactJoinsParts(data, parts);
    PartsOrdered(data.members, parts);
    PartsTexts(data.members, parts);
    forall s ensures (exists i :: 0 <= i < |parts| && parts[i].section == s) <==> Guard(data.members, s) {
      PartsGuarded(data.members, parts, s);
    }
  }

  /** Nothing is collected when no section has a text. */
  lemma {:induction false} CollectNothing(secs: seq<Section>, text: Section -> Option<string>)
    requires forall s :: s in secs ==> text(s).None?
    ensures Collect(secs, text) == []
  {
    if |secs| > 0 {
      assert secs[0] in secs;
      CollectNothing(secs[1..], text);
    }
  }

  /** A profile dict in which no section's guard holds has the empty digest. */
  lemma EmptyDigest(data: Json)
    requires Truthy(data) && data.Object?
    requires forall s :: !Guard(data.members, s)
    ensures Compact(data) == Ok("")
  {
    var d := data.members;
    assert !Guard(d, ProjectsSection) && !Guard(d, SkillsSection);
    NoProjectsText(Field(d, "projects"));
    NoSkillsText(Field(d, "skills"));
    var text := s => SectionText(d, None, None, s);
    assert forall s :: text(s).None?;
    CollectNothing(Order, text);
    assert Parts(d) == Ok([]);
  }

  /** Without a truthy category value, the skills loop yields nothing and cannot raise. */
  lemma NoSkillsText(skills: Json)
    requires !HasTruthyCategory(skills)
    ensures SkillsText(skills) == Ok(None)
  {
    if skills.Object? {
      SkillsPresent(skills);
    }
  }

  /** Without a named project among the first six, the projects loop yields nothing and cannot raise. */
  lemma NoProjectsText(projects: Json)
    requires !HasNamedProject(projects)
    ensures ProjectsText(projects) == Ok(None)
  {
    if projects.Array? && |projects.items| > 0 {
      var firsts := Text.Take(projects.items, MaxProjects);
      forall i | 0 <= i < |firsts| ensures ProjectLine(firsts[i]).Ok? {
        assert firsts[i] == projects.items[i];
      }
      NamedCountPositive(firsts);
    }
  }

  /** When no section line holds a newline, splitting the digest at newlines gives back
      exactly its section lines. */
  lemma DigestLines(data: Json, parts: seq<Part>)
    requires Truthy(data) && data.Object?
    requires Parts(data.members) == Ok(parts) && |parts| > 0
    requires forall i :: 0 <= i < |parts| ==> '\n' !in parts[i].text
    ensures Text.Split('\n', Compact(data).value) == Texts(parts)
    ensures |Text.Split('\n', Compact(data).value)| <= 7
  {
    Text.SplitJoin('\n', Texts(parts));
  }
}

=== FILE: json.dfy ===
/** Decoded JSON values as Python's `json` module hands them to the view:
    None, bool, int, str, list and dict. A dict keeps its keys in insertion
    order, as a sequence of members. */
module Json {
  import opened Wrappers
  import Text

  datatype Json =
    | Null
    | Bool(b: bool)
    | Int(n: int)
    | String(s: string)
    | Array(items: seq<Json>)
    | Object(members: seq<Member>)

  datatype Member = Member(key: string, value: Json)

  /** Python truthiness: `None`, `False`, `0`, `""`, `[]` and `{}` are false, everything else true. */
  predicate Truthy(j: Json) {
    match j
    case Null => false
    case Bool(b) => b
    case Int(n) => n != 0
    case String(s) => |s| > 0
    case Array(items) => |items| > 0
    case Object(members) => |members| > 0
  }

  /** Exactly six values are falsy. */
  lemma FalsyValues(j: Json)
    ensures !Truthy(j) <==>
      j == Null || j == Bool(false) || j == Int(0) || j == String([]) || j == Array([]) || j == Object([])
  {
  }

  /** `type(j).__name__`. */
  function TypeName(j: Json): string {
    match j
    case Null => "NoneType"
    case Bool(_) => "bool"
    case Int(_) => "int"
    case String(_) => "str"
    case Array(_) => "list"
    case Object(_) => "dict"
  }

  /** The value stored under `key`, if any. */
  function Lookup(members: seq<Member>, key: string): (r: Option<Json>)
    ensures r.None? <==> forall i :: 0 <= i < |members| ==> members[i].key != key
    ensures r.Some? ==> exists i :: 0 <= i < |members| && members[i] == Member(key, r.value)
    ensures r.Some? && |members| > 0 && members[0].key == key ==> r.value == members[0].value
  {
    if |members| == 0 then None
    else if members[0].key == key then Some(members[0].value)
    else Lookup(members[1..], key)
  }

  /** `d.get(key)`: the stored value, or `None` when the key is absent. */
  function Field(members: seq<Member>, key: string): (r: Json)
    ensures (forall i :: 0 <= i < |members| ==> members[i].key != key) ==> r == Null
    ensures Lookup(members, key).Some? ==> r == Lookup(members, key).value
    ensures Truthy(r) ==> exists i :: 0 <= i < |members| && members[i] == Member(key, r)
  {
    Lookup(members, key).GetOr(Null)
  }

  /** The values of a dict, in key order: `d.values()`. */
  function Values(members: seq<Member>): (r: seq<Json>)
    ensures |r| == |members|
    ensures forall i :: 0 <= i < |r| ==> r[i] == members[i].value
  {
    seq(|members|, i requires 0 <= i < |members| => members[i].value)
  }

  /** `str(j)`: a string is itself, anything else is its `repr`. */
  function Str(j: Json): (r: string)
    ensures j.String? ==> r == j.s
    ensures !j.String? ==> r == Repr(j)
    ensures r == "" <==> j == String("")
  {
    if j.String? then j.s else Repr(j)
  }

  /** `repr(j)`, with strings always in single quotes. */
  function Repr(j: Json): (r: string)
    ensures |r| > 0
    ensures r[0] == '[' <==> j.Array?
    ensures r[0] == '{' <==> j.Object?
    ensures r[0] == '\'' <==> j.String?
    ensures j.Array? ==> r[|r| - 1] == ']'
    ensures j.Object? ==> r[|r| - 1] == '}'
    decreases j
  {
    match j
    case Null => "None"
    case Bool(b) => if b then "True" else "False"
    case Int(n) => Text.IntToString(n)
    case String(s) => "'" + s + "'"
    case Array(items) =>
      "[" + Text.Join(", ", seq(|items|, i requires 0 <= i < |items| => Repr(items[i]))) + "]"
    case Object(members) =>
      "{" + Text.Join(", ", seq(|members|, i requires 0 <= i < |members| =>
        "'" + members[i].key + "': " + Repr(members[i].value))) + "}"
  }

  /** `str(j)` is empty only for the empty string. */
  lemma StrEmpty(j: Json)
    ensures Str(j) == "" <==> j == String("")
  {
  }
}

=== FILE: python.dfy ===
/** The Python operations the view applies to decoded JSON, with the exceptions
    they raise on values of the wrong type (CPython 3.12 wording). */
module Py {
  import opened Wrappers
  import opened Json
  import Text

  datatype PyException =
    | AttributeError(typeName: string, attr: string)
    | TypeError(msg: string)
    | KeyError(keyRepr: string)
    | IndexError(msg: string)

  /** `str(e)`. */
  function ExceptionText(e: PyException): string {
    match e
    case AttributeError(t, a) => "'" + t + "' object has no attribute '" + a + "'"
    case TypeError(m) => m
    case KeyError(k) => k
    case IndexError(m) => m
  }

  /** A value, or the exception raised while computing it. */
  datatype Result<+T> = Ok(value: T) | Raise(exc: PyException) {
    predicate IsFailure() {
      Raise?
    }

    function PropagateFailure<U>(): Result<U>
      requires Raise?
    {
      Raise(exc)
    }

    function Extract(): T
      requires Ok?
    {
      value
    }
  }

  /** `obj.get(key, default)`: only a dict has `get`. */
  function Get(obj: Json, key: string, default: Json): (r: Result<Json>)
    ensures r.Raise? <==> !obj.Object?
    ensures r.Raise? ==> r.exc == AttributeError(TypeName(obj), "get")
    ensures obj.Object? && (exists i :: 0 <= i < |obj.members| && obj.members[i].key == key) ==>
      r.Ok? && exists i :: 0 <= i < |obj.members| && obj.members[i] == Member(key, r.value)
    ensures obj.Object? && (forall i :: 0 <= i < |obj.members| ==> obj.members[i].key != key) ==>
      r == Ok(default)
  {
    if obj.Object? then Ok(Lookup(obj.members, key).GetOr(default))
    else Raise(AttributeError(TypeName(obj), "get"))
  }

  /** Python's substring test `t in s`. */
  predicate IsInfix(t: string, s: string) {
    t <= s || (|s| > 0 && IsInfix(t, s[1..]))
  }

  /** `key in container`: dict keys, list items, or a substring; anything else is not iterable. */
  function Contains(key: string, container: Json): (r: Result<bool>)
    ensures r.Raise? <==> !(container.Object? || container.Array? || container.String?)
    ensures container.Object? ==> r == Ok(Lookup(container.members, key).Some?)
    ensures container.Array? ==> r == Ok(String(key) in container.items)
    ensures container.String? ==> r == Ok(IsInfix(key, container.s))
  {
    match container
    case Object(ms) => Ok(Lookup(ms, key).Some?)
    case Array(items) => Ok(String(key) in items)
    case String(s) => Ok(IsInfix(key, s))
    case _ => Raise(TypeError("argument of type '" + TypeName(container) + "' is not iterable"))
  }

  /** `container[key]` for a string key that `Contains` has found. */
  function Subscript(container: Json, key: string): (r: Result<Json>)
    ensures container.Object? && Lookup(container.members, key).Some? ==>
      r == Ok(Lookup(container.members, key).value)
    ensures !container.Object? ==> r.Raise?
  {
    match container
    case Object(ms) =>
      if Lookup(ms, key).Some? then Ok(Lookup(ms, key).value) else Raise(KeyError(Repr(String(key))))
    case Array(_) => Raise(TypeError("list indices must be integers or slices, not str"))
    case String(_) => Raise(TypeError("string indices must be integers, not 'str'"))
    case _ => Raise(TypeError("'" + TypeName(container) + "' object is not subscriptable"))
  }

  /** `container[0]`. A JSON dict has only string keys, so `0` is never one of them. */
  function First(container: Json): (r: Result<Json>)
    ensures r.Ok? <==> (container.Array? && |container.items| > 0) || (container.String? && |container.s| > 0)
    ensures container.Array? && |container.items| > 0 ==> r.value == container.items[0]
    ensures container.String? && |container.s| > 0 ==> r.value == String([container.s[0]])
  {
    match container
    case Array(items) => if |items| > 0 then Ok(items[0]) else Raise(IndexError("list index out of range"))
    case String(s) => if |s| > 0 then Ok(String([s[0]])) else Raise(IndexError("string index out of range"))
    case Object(_) => Raise(KeyError("0"))
    case _ => Raise(TypeError("'" + TypeName(container) + "' object is not subscriptable"))
  }

  /** `j[:n]`: strings and lists are cut to their first `n` items; a dict
      looks the slice up as a key; scalars are not subscriptable. */
  function SliceTo(j: Json, n: nat): (r: Result<Json>)
    ensures r.Ok? <==> j.String? || j.Array?
    ensures j.String? ==> r == Ok(String(Text.Take(j.s, n)))
    ensures j.Array? ==> r == Ok(Array(Text.Take(j.items, n)))
  {
    match j
    case String(s) => Ok(String(Text.Take(s, n)))
    case Array(items) => Ok(Array(Text.Take(items, n)))
    case Object(_) => Raise(KeyError("slice(None, " + Text.IntToString(n) + ", None)"))
    case _ => Raise(TypeError("'" + TypeName(j) + "' object is not subscriptable"))
  }

  /** Index of the first item that is not a string. */
  function FirstNonString(items: seq<Json>): (k: nat)
    ensures k <= |items|
    ensures forall i :: 0 <= i < k ==> items[i].String?
    ensures k < |items| ==> !items[k].String?
  {
    if |items| == 0 || !items[0].String? then 0 else 1 + FirstNonString(items[1..])
  }

  /** `sep.join(items)`: every item must be a string. */
  function JoinStrings(sep: string, items: seq<Json>): (r: Result<string>)
    ensures r.Ok? <==> forall i :: 0 <= i < |items| ==> items[i].String?
    ensures r.Ok? ==> r.value == Text.Join(sep, seq(|items|, i requires 0 <= i < |items| => items[i].s))
    ensures r.Raise? ==> exists k ::
              && 0 <= k < |items| && !items[k].String?
              && (forall i :: 0 <= i < k ==> items[i].String?)
              && r.exc == TypeError("sequence item " + Text.IntToString(k) + ": expected str instance, "
                                    + TypeName(items[k]) + " found")
  {
    var k := FirstNonString(items);
    if k == |items| then Ok(Text.Join(sep, seq(|items|, i requires 0 <= i < |items| => items[i].s)))
    else Raise(TypeError("sequence item " + Text.IntToString(k) + ": expected str instance, "
                         + TypeName(items[k]) + " found"))
  }
}

=== FILE: text.dfy ===
/** The few Python string operations the digest builder relies on:
    `sep.join(parts)`, `str.split(sep)` (as the inverse of join),
    `str.strip()`, slicing `s[:n]` and `str(n)` for integers. */
module Text {

  /** `s[:n]` for a non-negative `n`: the first `n` items, or all of them. */
  function Take<T>(s: seq<T>, n: nat): (r: seq<T>)
    ensures |r| <= n && |r| <= |s|
    ensures |r| == n || |r| == |s|
    ensures r <= s
  {
    if |s| <= n then s else s[..n]
  }

  /** `sep.join(parts)`. */
  function Join(sep: string, parts: seq<string>): string
  {
    if |parts| == 0 then ""
    else if |parts| == 1 then parts[0]
    else parts[0] + sep + Join(sep, parts[1..])
  }

  /** Splits `s` at every occurrence of `c`; `"a\nb".split("\n")`. */
  function Split(c: char, s: string): (r: seq<string>)
    ensures |r| >= 1
    decreases |s|
  {
    if |s| == 0 then [""]
    else
      var rest := Split(c, s[1..]);
      if s[0] == c then [""] + rest
      else [[s[0]] + rest[0]] + rest[1..]
  }

  /** Splitting `x + s` where `x` holds no separator glues `x` onto the first piece of `s`. */
  lemma {:induction false} SplitPrefix(c: char, x: string, s: string)
    requires c !in x
    ensures Split(c, x + s) == [x + Split(c, s)[0]] + Split(c, s)[1..]
    decreases |x|
  {
    var r := Split(c, s);
    if |x| == 0 {
      assert x + s == s;
      assert x + r[0] == r[0];
      assert [r[0]] + r[1..] == r;
    } else {
      assert (x + s)[1..] == x[1..] + s;
      SplitPrefix(c, x[1..], s);
      assert [x[0]] + (x[1..] + Split(c, s)[0]) == x + Split(c, s)[0];
    }
  }

  /** `sep.join` with a one-character separator is undone by `split` when no part holds the separator. */
  lemma {:induction false} SplitJoin(c: char, parts: seq<string>)
    requires |parts| >= 1
    requires forall i :: 0 <= i < |parts| ==> c !in parts[i]
    ensures Split(c, Join([c], parts)) == parts
    decreases |parts|
  {
    if |parts| == 1 {
      SplitPrefix(c, parts[0], "");
      assert parts[0] + "" == parts[0];
    } else {
      var rest := Join([c], parts[1..]);
      assert Join([c], parts) == parts[0] + ([c] + rest);
      SplitPrefix(c, parts[0], [c] + rest);
      assert ([c] + rest)[1..] == rest;
      SplitJoin(c, parts[1..]);
      assert Split(c, [c] + rest) == [""] + parts[1..];
      assert parts[0] + "" == parts[0];
      assert [parts[0]] + parts[1..] == parts;
    }
  }

  /** The characters Python's `str.isspace()` accepts. */
  predicate IsSpace(ch: char) {
    || ch == ' ' || ch == '\t' || ch == '\n' || ch == '\r' || ch == '\U{0B}' || ch == '\U{0C}'
    || ('\U{1C}' <= ch <= '\U{1F}') || ch == '\U{85}' || ch == '\U{A0}' || ch == '\U{1680}'
    || ('\U{2000}' <= ch <= '\U{200A}') || ch == '\U{2028}' || ch == '\U{2029}' || ch == '\U{202F}'
    || ch == '\U{205F}' || ch == '\U{3000}'
  }

  /** `s.lstrip()`: drops leading whitespace. */
  function StripLeft(s: string): (r: string)
    ensures |r| <= |s| && r == s[|s| - |r|..]
    ensures |r| > 0 ==> !IsSpace(r[0])
    ensures forall i :: 0 <= i < |s| - |r| ==> IsSpace(s[i])
  {
    if |s| > 0 && IsSpace(s[0]) then StripLeft(s[1..]) else s
  }

  /** `s.rstrip()`: drops trailing whitespace. */
  function StripRight(s: string): (r: string)
    ensures |r| <= |s| && r == s[..|r|]
    ensures |r| > 0 ==> !IsSpace(r[|r| - 1])
    ensures forall i :: |r| <= i < |s| ==> IsSpace(s[i])
  {
    if |s| > 0 && IsSpace(s[|s| - 1]) then StripRight(s[..|s| - 1]) else s
  }

  /** `s.strip()`: a string already free of whitespace at both ends is left as it is;
      otherwise the result is shorter and has no whitespace at either end. */
  function Strip(s: string): (r: string)
    ensures |r| <= |s|
    ensures |r| > 0 ==> !IsSpace(r[0]) && !IsSpace(r[|r| - 1])
    ensures |s| > 0 && !IsSpace(s[0]) && !IsSpace(s[|s| - 1]) ==> r == s
    ensures |s| > 0 && !IsSpace(s[0]) ==> r == StripRight(s)
  {
    StripRight(StripLeft(s))
  }

  /** `t` is `s[lo..hi]`, with only whitespace outside it and none at its own ends. */
  predicate TrimmedAt(s: string, lo: int, hi: int, t: string) {
    && 0 <= lo <= hi <= |s| && t == s[lo..hi]
    && (forall i :: 0 <= i < lo ==> IsSpace(s[i]))
    && (forall i :: hi <= i < |s| ==> IsSpace(s[i]))
    && (|t| > 0 ==> !IsSpace(t[0]) && !IsSpace(t[|t| - 1]))
  }

  /** Whitespace at the end of a suffix of `s` is whitespace at the end of `s`. */
  lemma SuffixSpaces(s: string, lo: nat, k: nat)
    requires lo <= |s| && k <= |s| - lo
    requires forall i :: k <= i < |s[lo..]| ==> IsSpace(s[lo..][i])
    ensures forall i :: lo + k <= i < |s| ==> IsSpace(s[i])
  {
    forall i | lo + k <= i < |s| ensures IsSpace(s[i]) {
      assert s[i] == s[lo..][i - lo];
    }
  }

  /** What strip keeps: the part of `s` between its leading and trailing whitespace,
      with no whitespace at either end. */
  lemma StripIsTrimmedInfix(s: string)
    ensures exists lo, hi :: TrimmedAt(s, lo, hi, Strip(s))
  {
    var l := StripLeft(s);
    var r := StripRight(l);
    var lo := |s| - |l|;
    var hi := lo + |r|;
    assert l == s[lo..];
    SuffixSpaces(s, lo, |r|);
    assert r == s[lo..hi] by {
      assert r == l[..|r|];
    }
    assert |r| > 0 ==> r[0] == l[0];
    assert Strip(s) == r;
    assert TrimmedAt(s, lo, hi, Strip(s));
  }

  /** Stripping twice changes nothing more. */
  lemma StripIdempotent(s: string)
    ensures Strip(Strip(s)) == Strip(s)
  {
    StripIsTrimmedInfix(s);
  }

  /** A string starting with a non-space character keeps, after strip, every prefix
      that ends in a non-space character. */
  lemma StripKeepsPrefix(s: string, k: nat)
    requires k < |s|
    requires !IsSpace(s[0]) && !IsSpace(s[k])
    ensures s[..k + 1] <= Strip(s)
  {
    assert StripLeft(s) == s;
  }

  /** Strip of `a + t`, where `a` starts and ends with non-space characters, only
      removes trailing whitespace and keeps all of `a`. */
  lemma StripKeepsHead(a: string, t: string)
    requires |a| > 0 && !IsSpace(a[0]) && !IsSpace(a[|a| - 1])
    ensures Strip(a + t) == StripRight(a + t)
    ensures a <= Strip(a + t)
  {
    var s := a + t;
    assert s[0] == a[0] && s[|a| - 1] == a[|a| - 1];
    var r := StripRight(s);
    assert |r| >= |a|;
    assert s[..|a|] == a;
  }

  function DigitChar(d: nat): (ch: char)
    requires d < 10
    ensures '0' <= ch <= '9'
  {
    "0123456789"[d]
  }

  /** `str(n)` for `n >= 0`: decimal digits, most significant first. */
  function NatToString(n: nat): (r: string)
    ensures |r| >= 1
    ensures forall i :: 0 <= i < |r| ==> '0' <= r[i] <= '9'
    ensures |r| > 1 ==> r[0] != '0'
  {
    if n < 10 then [DigitChar(n)] else NatToString(n / 10) + [DigitChar(n % 10)]
  }

  /** Reads back a string of decimal digits. */
  function ParseNat(s: string): nat
    requires forall i :: 0 <= i < |s| ==> '0' <= s[i] <= '9'
  {
    if |s| == 0 then 0 else 10 * ParseNat(s[..|s| - 1]) + (s[|s| - 1] as int - '0' as int)
  }

  /** The decimal rendering of a natural number reads back as that number. */
  lemma {:induction false} ParseNatToString(n: nat)
    ensures ParseNat(NatToString(n)) == n
  {
    var s := NatToString(n);
    if n < 10 {
      DigitValue(n);
    } else {
      var q, d := n / 10, n % 10;
      ParseNatToString(q);
      DigitValue(d);
      assert s == NatToString(q) + [DigitChar(d)];
      assert s[..|s| - 1] == NatToString(q);
      assert ParseNat(s) == 10 * ParseNat(NatToString(q)) + (DigitChar(d) as int - '0' as int);
    }
  }

  lemma DigitValue(d: nat)
    requires d < 10
    ensures DigitChar(d) as int - '0' as int == d
  {
  }

  /** `str(n)` for any Python integer. */
  function IntToString(n: int): (r: string)
    ensures |r| >= 1
    ensures n < 0 <==> r[0] == '-'
    ensures r[0] == '-' || '0' <= r[0] <= '9'
  {
    if n < 0 then "-" + NatToString(-n) else NatToString(n)
  }
}

=== FILE: wrappers.dfy ===
/** Optional values, used for "absent" results (a missing dict key, a section whose guard fails). */
module Wrappers {

  datatype Option<+T> = None | Some(value: T) {

    /** The value held, or `default` when there is none. */
    function GetOr(default: T): T {
      match this
      case Some(v) => v
      case None => default
    }

    /** The zero- or one-element sequence holding the value. */
    function ToSeq(): (r: seq<T>)
      ensures |r| <= 1
      ensures Some? <==> |r| == 1
      ensures Some? ==> r[0] == value
    {
      match this
      case Some(v) => [v]
      case None => []
    }
  }
}
